=== FILE: README.md ===
# holepunch client: a Dafny model of the UDP hole-punching client

The client registers a session with a rendezvous relay and runs one receive
loop that routes every inbound datagram by its source address. The loop learns
the remote peer's public address from the relay's `PEER <ip> <port>` line.
`punch_and_monitor` is written to punch a hole with a fixed marker datagram,
but as written it stops at its first line of work (see below). This project
models that client as it is written in `client.py`. The session state is an immutable record, and the
receive loop is a pure step function that returns the next state together with
the list of `sendto` calls it would make. The loop is also folded over whole
sequences of received datagrams. Around the step sit the parsers and
formatters it relies on, and the main flow of `punch_and_monitor` and the
keepalive loop with time abstracted away.

Modules, leaf to root:

- `Base` (base.dfy): `Option`, `byte`, `Bytes`.
- `Text` (text.dfy): `str.encode()` as UTF-8 and `bytes.decode(errors="ignore")` on ASCII.
- `Tokens` (tokens.dfy): `str.strip()` and `str.split()` with Python's whitespace set.
- `PyInt` (pyint.dfy): `int(token)` in base 10, with sign and underscores, and `str(n)`.
- `Session` (session.dfy): addresses, the `state` dictionary, send actions, `PUNCH_MESSAGE`, the initial state and the REGISTER line.
- `Control` (control.dfy): reading a relay payload as a `PEER` announcement.
- `Router` (router.dfy): the `packet_loop` dispatch, its fold `Run`, and lemmas over runs.
- `Driver` (driver.dfy): `punch_and_monitor` as written, the decisions it would take after its burst, and the keepalive tick.

## How client.py behaves

The model follows the code in each of these places.

- `punch_and_monitor` calls `send_register` on the first turn of its register
  burst (client.py:14). client.py neither defines nor imports that name. So
  every run raises `NameError` there, before anything is sent, and nothing
  catches it: the process ends with a traceback after the single REGISTER at
  client.py:100, and the daemon receive thread ends with it. The discovery wait, the punch loop, the `direct_ok` test, the
  forwarder thread and the keepalive loop are never reached
  (`Driver.PunchAndMonitor`). The model still states what the code after the
  burst would decide (`Driver.Decide`) and what one keepalive turn sends
  (`Driver.Tick`).
- The receive loop overwrites `remote_peer` on every valid PEER line, so the
  last announcement wins (`Router.RunRemotePeerIsLastAnnounced`,
  `Router.SecondAnnouncementWins`).
- A PEER line whose port is not an integer, or has more than 4300 digits, makes `int()` raise `ValueError`.
  Nothing catches it, so the receive loop ends (`Router.RunRaisesIff`).
- The receive loop never writes `connected`. `punch_and_monitor` would set it
  only when `direct_ok` is truthy, and nothing ever stores `direct_ok`. So
  even past the burst the decision would always be `exit(0)`
  (`Driver.HolePunchNeverSucceeds`).
- Forwarding sends to `('127.0.0.1', state[...])`, a pair whose second element
  is a whole address tuple or `None`, not a port. The model keeps that pair as
  `LoopbackPair(field)`: the router never addresses a real `(host, port)`
  (`Router.Run`).
- The punch marker is filtered only on the remote-peer branch. A marker from a
  loopback source is forwarded (`Router.OnLoopback`).
- A relay address that is also the remote peer is always treated as relay
  traffic, because the relay test comes first (`Router.Classify`, `Router.Step`).

## Model

| member | source | states |
|---|---|---|
| Text.Decode | client.py:54 | Decoding yields ASCII text no longer than the payload |
| Text.DecodeEncode | client.py:54 | Decoding the encoding of an ASCII string gives the string back |
| Text.Encode | client.py:100 | UTF-8: every character takes one to four bytes, and an ASCII string exactly one byte per character |
| Text.EncodeAppend | client.py:100 | Encoding a concatenation is the concatenation of the encodings |
| Text.EncodeAscii | client.py:100 | On ASCII text each byte of the encoding is the code of the corresponding character |
| Tokens.Split | client.py:54 | Every token `split()` yields is non-empty and contains no whitespace |
| Tokens.SplitKeepsContent | client.py:54 | Concatenated, the tokens are exactly the input's non-whitespace characters, in order |
| Tokens.StripIsRedundant | client.py:54 | `strip()` before `split()` never changes the tokens: splitting the stripped text gives the same words as splitting the raw text |
| Tokens.SplitJoin | client.py:54 | Words joined by single spaces, followed by any whitespace, split back into the same words |
| PyInt.ParseInt | client.py:56 | `int()` accepts only digits, underscores and one leading sign; a negative result needs a leading `-`; a plain digit string parses to its decimal value when it has at most 4300 digits and is rejected when it has more |
| PyInt.ParseIntGrammar | client.py:56 | `int()` accepts a token exactly when it is an optional sign followed by digits with single underscores only between digits and at most 4300 digits; its value is the digits' decimal value, negated under `-` |
| PyInt.ParseIntSign | client.py:56 | On an unsigned body, a leading `+` changes nothing and a leading `-` negates the value; either is rejected with the body |
| PyInt.ParseIntRejects | client.py:56 | Every unsigned body that is empty or has a leading, trailing or doubled underscore is rejected, bare or behind `+` or `-`; in particular a lone sign is rejected |
| PyInt.ParseIntAccepts | client.py:56 | `1_000` reads as 1000 and `+5` as 5 |
| PyInt.ParseFormat | client.py:56 | `int(str(n)) == n` for every integer `n` of at most 4300 digits; beyond that `int()` rejects the rendering |
| PyInt.ParseFormatNonNegative | client.py:56 | For `n >= 0`: `int(str(n)) == n` when `n` has at most 4300 digits, and `int()` rejects the rendering otherwise |
| PyInt.ParseFormatNegative | client.py:56 | For `n < 0`: `int(str(n)) == n` when `n` has at most 4300 digits, the leading `-` included in the parse, and `int()` rejects the rendering otherwise |
| Session.InitialState | client.py:94-98 | No remote peer, not connected, no `direct_ok`; the local peer is exactly `("127.0.0.1", n)` when the option `n` is given and non-zero, and unset otherwise |
| Session.RegisterMessage | client.py:100 | The bytes are `REGISTER `, the UTF-8 session identifier and a newline, in that order |
| Session.ReadBackLine | client.py:54 | A newline-terminated line of ASCII words, decoded, stripped and split, gives the same words |
| Session.RegisterReadsBack | client.py:123 | For a session identifier that is a single ASCII word (non-empty, no whitespace), a relay tokenizing the REGISTER line gets exactly `["REGISTER", session]` |
| Control.ParseControl | client.py:54-58 | A relay payload is ignored exactly when it has fewer than 3 tokens or does not start with `PEER`; otherwise the host is the second token and the port is `int()` of the third, or the third token is rejected; an announced host is a whitespace-free word |
| Control.ParsePeerLine | client.py:54-58 | `PEER <ip> <port>` followed by any extra tokens announces `(ip, int(port))`, or fails on the port token; the extra tokens are ignored |
| Control.AnnounceRoundTrip | client.py:54-58 | `PEER <ip> <str(port)>` is read back as exactly the address `(ip, port)`, for every port of at most 4300 digits; a longer one is a rejected port |
| Router.Classify | client.py:53-66 | Exactly one route per datagram: relay when the source is the relay; remote peer only when it is not the relay and equals the known peer; loopback only when neither holds and the host starts with `127.` |
| Router.OnRelay | client.py:53-61 | A relay datagram never causes a send and changes no field but the remote peer; a PEER line with an integer port overwrites the remote peer whatever it was; a non-integer port raises; every other payload leaves the state unchanged |
| Router.OnRemotePeer | client.py:62-65 | The state is unchanged; exactly one send when the payload is not the marker and none when it is; a send carries the payload unmodified, never the marker, towards `('127.0.0.1', local_peer)` |
| Router.OnLoopback | client.py:66-70 | The source becomes the local peer and nothing else changes; exactly one send of the unmodified payload, marker included, towards `('127.0.0.1', remote_peer)` |
| Router.Step | client.py:47-70 | Only relay traffic raises, and it never sends; the router never writes `connected` or `direct_ok`; only the relay moves the remote peer; only a loopback source becomes the local peer, which stays in the loopback range; at most one send, carrying the received payload; the marker goes out only from a loopback source; an unrecognised source changes nothing and gets nothing |
| Router.Run | client.py:49-70 | Over any run, a loopback local peer stays loopback, and every send targets a `('127.0.0.1', field)` pair, never a real address |
| Router.RunKeepsFlags | client.py:49-70 | No run of the loop changes `connected` or `direct_ok` |
| Router.RunRaisesIff | client.py:53-58 | In the model, where `sendto` errors are left out, the loop dies exactly when some relay datagram is a PEER line whose port `int()` rejects, whatever the starting state |
| Router.RunRemotePeerIsLastAnnounced | client.py:53-58 | After a run that did not die, the remote peer is the relay's last announced address, or its starting value if there was no announcement |
| Router.RemotePeerNeedsRelay | client.py:53-62 | Without datagrams from the relay, the remote peer never changes and the loop never dies |
| Router.RelayTrafficIsSilent | client.py:53-61 | A run of relay datagrams sends nothing and leaves the local peer alone |
| Router.RunForwardsReceivedPayloads | client.py:62-70 | Every send of a run is byte-identical to the payload of some non-relay datagram of the run, and a forwarded marker came from a loopback host |
| Router.SecondAnnouncementWins | client.py:58 | Two relay announcements in a row, with ports `str()` can render, leave the second address as the remote peer |
| Driver.Tick | client.py:121-133 | Each keepalive turn sends one REGISTER to the relay, then one marker to the remote peer exactly when a remote peer is known |
| Driver.PunchAndMonitor | client.py:9-14 | The first burst turn calls the undefined `send_register`: the function crashes with no send, never reaching the decision `Driver.Decide` would take |
| Driver.Decide | client.py:17-45 | After a burst that returned: with no peer after the wait, exit with no punch; otherwise every punch goes to the peer read when the wait ended; the phase ends connected exactly when a peer was found and `direct_ok` is truthy, and nothing else in the state changes |
| Driver.HolePunchNeverSucceeds | client.py:40-45 | From the initial state, whatever the router receives, the post-burst decision is `exit(0)` and `connected` stays false |
| Driver.NoRelayNoPunch | client.py:20-25 | With no relay datagram before the wait ends, the post-burst decision is `exit(0)` without any punch |
| Driver.KeepaliveFollowsLastAnnouncement | client.py:121-133 | For the keepalive loop `main` would reach after a returning `punch_and_monitor`: after a run from the initial state that did not die, a keepalive turn punches towards the relay's last announced peer, or only registers when there was none |

## Left out

- Sockets: `socket`, `bind`, `sendto`, `recvfrom` and their exceptions (client.py:50, 86-92). Sends are `Send` values, and the transport is external. In CPython, a `sendto` to a `('127.0.0.1', <tuple or None>)` destination raises `TypeError`, which would end `packet_loop`. The model records such a send as a value and does not model the exception.
- The 65536-byte receive cap (client.py:6, 50): truncation is the transport's business.
- Threads (client.py:103-107): `Router.Run` is a sequential fold over received datagrams. `punch_and_monitor` reads the state at two snapshot points. Lines 23 and 27 are taken as one reading.
- Time (client.py:15-21, 32-38, 133): `time.sleep`, the deadlines and the keepalive interval. Only the decision at the end of each phase is modelled. The number of punch-loop turns is a parameter. The keepalive loop is one `Driver.Tick` per turn.
- `argparse`, `main`'s wiring, every `print`, and `exit` (client.py:72-82, 110, 134-139). `exit(0)` is the `Exit` phase and the uncaught `NameError` the `Crashed` phase. The order of `main`'s calls is not composed into one function.
- The forwarder thread at client.py:113-117: `local_to_remote_loop` and `local_sock` are undefined, so Python would raise `NameError` there too. `punch_and_monitor` never returns, so it is not reached.
- Driver.Decide: what `send_register` would have sent is not modelled, because client.py does not say; the decision is stated from the end of the burst on.
- Text.Decode: keeps only bytes below 0x80. Python also decodes valid multi-byte UTF-8 sequences into non-ASCII characters. Among those, `split()` treats characters such as U+00A0 as separators, and `int()` accepts non-ASCII decimal digits.
- PyInt.ParseInt: accepts ASCII digits only. Python's `int()` also accepts non-ASCII decimal digits and surrounding whitespace. A token from `split()` has no surrounding whitespace, and `Text.Decode` yields no non-ASCII characters.
- PyInt.ParseInt: fixes the digit limit at CPython's default of 4300. `sys.set_int_max_str_digits` and `PYTHONINTMAXSTRDIGITS` can change or lift it, and Python releases before the limit was introduced have none.
- Session.RegisterMessage: a `--session` argument that is not valid UTF-8 reaches Python as lone surrogates, and `.encode()` then raises `UnicodeEncodeError` at client.py:100, before the receive thread starts. Dafny's `char` holds only Unicode scalar values, so the model has no such session and does not model this crash.

=== FILE: base.dfy ===
/** Shared vocabulary: optional values and Python `bytes`. */
module Base {

  /** Python's `None` or a present value. */
  datatype Option<+T> = None | Some(value: T)

  /** One octet of a Python `bytes` object. */
  newtype byte = x: int | 0 <= x < 256

  /** A Python `bytes` value, such as a datagram payload. */
  type Bytes = seq<byte>
}

=== FILE: control.dfy ===
/** Relay control traffic: how the router reads a datagram that arrives from
    the relay address (`PEER <ip> <port>`). */
module Control {
  import opened Base
  import opened Text
  import opened Tokens
  import opened PyInt
  import opened Session

  /** What a relay payload means to the client: a peer announcement, a PEER
      line whose port `int()` rejects (Python raises `ValueError`), or
      anything else, which is ignored. */
  datatype Control = PeerAnnounce(addr: Addr) | BadPort(token: string) | Other

  predicate IsPeerLine(t: seq<string>) {
    |t| >= 3 && t[0] == "PEER"
  }

  /** Reading of one relay payload: decode, strip, split, then take the
      second and third tokens as host and port when the first is `PEER`. */
  function ParseControl(data: Bytes): (c: Control)
    ensures var t := Tokenize(Decode(data));
      && (c.Other? <==> !IsPeerLine(t))
      && (c.PeerAnnounce? ==> c.addr.host == t[1] && ParseInt(t[2]) == Some(c.addr.port))
      && (c.BadPort? ==> c.token == t[2] && ParseInt(t[2]) == None)
    ensures c.PeerAnnounce? ==> IsWord(c.addr.host)
  {
    var t := Tokenize(Decode(data));
    if IsPeerLine(t) then
      match ParseInt(t[2])
      case Some(port) => PeerAnnounce(Addr(t[1], port))
      case None => BadPort(t[2])
    else Other
  }

  /** The relay's line `PEER <ip> <port>`, possibly followed by more tokens,
      newline-terminated and encoded. */
  function PeerLine(ip: string, port: string, extra: seq<string>): Bytes {
    Encode(JoinSpaced(["PEER", ip, port] + extra) + "\n")
  }

  predicate AsciiWords(ws: seq<string>) {
    forall k :: 0 <= k < |ws| ==> IsWord(ws[k]) && IsAscii(ws[k])
  }

  /** A PEER line reads back as the address it carries, whatever tokens
      follow the port, or as `BadPort` when `int()` rejects the port token. */
  lemma {:induction false} ParsePeerLine(ip: string, port: string, extra: seq<string>)
    requires AsciiWords([ip, port] + extra)
    ensures ParseControl(PeerLine(ip, port, extra)) ==
            match ParseInt(port)
            case Some(p) => PeerAnnounce(Addr(ip, p))
            case None => BadPort(port)
  {
    var ws := ["PEER", ip, port] + extra;
    assert IsWord("PEER") && IsAscii("PEER");
    assert ws[0] == "PEER";
    assert forall k :: 1 <= k < |ws| ==> ws[k] == ([ip, port] + extra)[k - 1];
    ReadBackLine(ws);
  }

  lemma {:induction false} FormatIntIsAsciiWord(n: int)
    ensures IsWord(FormatInt(n)) && IsAscii(FormatInt(n))
  {
    var s := FormatInt(n);
    assert forall i :: 0 <= i < |s| ==> s[i] == '-' || IsDigit(s[i]);
  }

  /** `PEER <ip> <str(port)>` announces exactly `(ip, port)`; only a port with
      more than `MAX_STR_DIGITS` digits, which `str()` would refuse to render,
      is read as `BadPort`. */
  lemma {:induction false} AnnounceRoundTrip(ip: string, port: int, extra: seq<string>)
    requires IsWord(ip) && IsAscii(ip) && AsciiWords(extra)
    ensures ParseControl(PeerLine(ip, FormatInt(port), extra)) ==
            if DigitCount(port) <= MAX_STR_DIGITS then PeerAnnounce(Addr(ip, port))
            else BadPort(FormatInt(port))
  {
    FormatIntIsAsciiWord(port);
    var ws := [ip, FormatInt(port)] + extra;
    assert forall k :: 2 <= k < |ws| ==> ws[k] == extra[k - 2];
    ParsePeerLine(ip, FormatInt(port), extra);
    ParseFormat(port);
  }
}

=== FILE: driver.dfy ===
/** The main flow of the client: `punch_and_monitor` as written, the two
    decisions it would take after its register burst, and one turn of the
    steady-state keepalive loop. */
module Driver {
  import opened Base
  import opened Session
  import opened Router

  /** `n` copies of the same send. */
  function Repeat(x: Send, n: nat): (r: seq<Send>)
    ensures |r| == n
    ensures forall k :: 0 <= k < n ==> r[k] == x
  {
    if n == 0 then [] else [x] + Repeat(x, n - 1)
  }

  /** One turn of the steady-state loop: a REGISTER keepalive to the relay,
      then a punch marker to the remote peer if one is known. `main` would
      reach this loop only after `punch_and_monitor` returned and the
      forwarder thread started; as written, it gets to neither. */
  function Tick(s: State, relay: Addr, session: string): (r: seq<Send>)
    ensures 1 <= |r| <= 2
    ensures r[0] == Send(RegisterMessage(session), To(relay))
    ensures |r| == 2 <==> s.remotePeer.Some?
    ensures |r| == 2 ==> r[1] == Send(PUNCH_MESSAGE, To(s.remotePeer.value))
  {
    var register := Send(RegisterMessage(session), To(relay));
    match s.remotePeer
    case Some(peer) => [register, Send(PUNCH_MESSAGE, To(peer))]
    case None => [register]
  }

  /** How `punch_and_monitor` ends: an uncaught `NameError`, `exit(0)`, or a
      connected state handed back to `main`. */
  datatype Phase = Crashed | Exit | Established(state: State)

  /** Everything `punch_and_monitor` sends, in order, and how it ends. */
  datatype Monitor = Monitor(sends: seq<Send>, phase: Phase)

  /** `punch_and_monitor` as written. The first turn of the register burst
      calls `send_register`, a name client.py neither defines nor imports, so
      Python raises `NameError` before anything is sent, and neither the
      discovery wait nor the punch loop ever runs. The relay address and the
      session are never used, so they are not parameters; `found`, `settled`
      and `punches` are those of `Decide`, the decision that is never reached. */
  function PunchAndMonitor(found: State, settled: State, punches: nat): (m: Monitor)
    ensures m.phase.Crashed? && m.sends == []
    ensures m.phase != Decide(found, settled, punches).phase
  {
    Monitor([], Crashed)
  }

  /** The rest of `punch_and_monitor`, after the burst, for a burst that
      returned. Time is abstracted: `found` is the state when the discovery
      wait ends, `settled` the state when the punch window closes, and
      `punches` the number of turns of the punch loop. */
  function Decide(found: State, settled: State, punches: nat): (m: Monitor)
    ensures !m.phase.Crashed?
    // No peer after the wait: exit without a single punch.
    ensures found.remotePeer.None? ==> m == Monitor([], Exit)
    // Otherwise every punch goes to the peer read when the wait ended.
    ensures found.remotePeer.Some? ==>
              && |m.sends| == punches
              && forall k :: 0 <= k < |m.sends| ==>
                   m.sends[k] == Send(PUNCH_MESSAGE, To(found.remotePeer.value))
    // `connected` is set only on a truthy `direct_ok`.
    ensures m.phase.Established? <==> found.remotePeer.Some? && settled.directOk
    ensures m.phase.Established? ==> m.phase.state.connected && m.phase.state.(connected := settled.connected) == settled
  {
    match found.remotePeer
    case None => Monitor([], Exit)
    case Some(peer) =>
      var sends := Repeat(Send(PUNCH_MESSAGE, To(peer)), punches);
      if settled.directOk then Monitor(sends, Established(settled.(connected := true)))
      else Monitor(sends, Exit)
  }

  /** Nothing ever stores `direct_ok`, so even a burst that returned could not
      lead to a successful punch: for any datagrams the router handles before
      the wait ends (`early`) and before the punch window closes (`late`), the
      decision is `exit(0)` and `connected` stays false. */
  lemma {:induction false} HolePunchNeverSucceeds(localDefault: Option<int>, relay: Addr,
                               early: seq<Datagram>, late: seq<Datagram>, punches: nat)
    ensures var s0 := InitialState(localDefault);
            var found := Run(s0, relay, early).state;
            var settled := Run(s0, relay, early + late).state;
            && Decide(found, settled, punches).phase == Exit
            && !settled.connected
  {
    var s0 := InitialState(localDefault);
    RunKeepsFlags(s0, relay, early + late);
  }

  /** If no datagram comes from the relay during the wait, the decision is
      `exit(0)` without a single punch. */
  lemma {:induction false} NoRelayNoPunch(localDefault: Option<int>, relay: Addr,
                       early: seq<Datagram>, late: seq<Datagram>, punches: nat)
    requires forall i :: 0 <= i < |early| ==> early[i].src != relay
    ensures var s0 := InitialState(localDefault);
            var found := Run(s0, relay, early).state;
            var settled := Run(s0, relay, early + late).state;
            Decide(found, settled, punches) == Monitor([], Exit)
  {
    RemotePeerNeedsRelay(InitialState(localDefault), relay, early);
  }

  /** A keepalive turn after the router has handled `ds` from the initial
      state punches towards the relay's last announced peer, and only
      registers when there was no announcement. */
  lemma {:induction false} KeepaliveFollowsLastAnnouncement(localDefault: Option<int>, relay: Addr, session: string,
                                         ds: seq<Datagram>)
    requires Run(InitialState(localDefault), relay, ds).raised.None?
    ensures var r := Tick(Run(InitialState(localDefault), relay, ds).state, relay, session);
            match LastAnnounced(relay, ds)
            case None => r == [Send(RegisterMessage(session), To(relay))]
            case Some(peer) => r == [Send(RegisterMessage(session), To(relay)), Send(PUNCH_MESSAGE, To(peer))]
  {
    RunRemotePeerIsLastAnnounced(InitialState(localDefault), relay, ds);
  }
}

=== FILE: pyint.dfy ===
/** Python's `int(token)` on a base-10 ASCII token without surrounding
    whitespace, and the decimal rendering `str(n)` it inverts. */
module PyInt {
  import opened Base

  /** CPython's default `sys.get_int_max_str_digits()`: `int()` on a decimal
      string with more digits than this (underscores not counted, leading
      zeros counted) raises `ValueError`, and so does `str(n)` for an `n`
      with more decimal digits. */
  const MAX_STR_DIGITS: nat := 4300

  predicate IsDigit(c: char) {
    '0' <= c <= '9'
  }

  predicate AllDigits(s: string) {
    forall i :: 0 <= i < |s| ==> IsDigit(s[i])
  }

  /** The digit part `int()` accepts: digits, where single underscores may
      stand between two digits. */
  predicate IsDigitRun(b: string) {
    && |b| > 0
    && IsDigit(b[0])
    && IsDigit(b[|b| - 1])
    && (forall i :: 0 <= i < |b| ==> IsDigit(b[i]) || b[i] == '_')
    && (forall i :: 0 <= i < |b| - 1 ==> b[i] != '_' || b[i + 1] != '_')
  }

  /** `b` with its underscores removed. */
  function DropUnderscores(b: string): (r: string)
    ensures |r| <= |b|
    ensures (forall i :: 0 <= i < |b| ==> IsDigit(b[i]) || b[i] == '_') ==> AllDigits(r)
    ensures AllDigits(b) ==> r == b
  {
    if b == [] then [] else (if b[0] == '_' then [] else [b[0]]) + DropUnderscores(b[1..])
  }

  /** Decimal value of a digit string, most significant digit first. */
  function ValueOf(ds: string): nat
    requires AllDigits(ds)
  {
    if ds == [] then 0
    else 10 * ValueOf(ds[..|ds| - 1]) + (ds[|ds| - 1] as int - '0' as int)
  }

  /** The value of an unsigned digit part, or `None` where `int()` rejects it:
      a malformed run, or one with more than `MAX_STR_DIGITS` digits. */
  function ParseDigits(body: string): (r: Option<nat>)
    ensures r.Some? ==> |body| > 0 && forall i :: 0 <= i < |body| ==> IsDigit(body[i]) || body[i] == '_'
    ensures r.Some? <==> IsDigitRun(body) && |DropUnderscores(body)| <= MAX_STR_DIGITS
    ensures r.Some? ==> AllDigits(DropUnderscores(body)) && r.value == ValueOf(DropUnderscores(body))
    ensures |body| > 0 && AllDigits(body) ==>
              r == if |body| <= MAX_STR_DIGITS then Some(ValueOf(body)) else None
  {
    if IsDigitRun(body) && |DropUnderscores(body)| <= MAX_STR_DIGITS then
      Some(ValueOf(DropUnderscores(body)))
    else None
  }

  /** A token that starts with `+` or `-`. */
  predicate HasSign(tok: string) {
    |tok| > 0 && (tok[0] == '+' || tok[0] == '-')
  }

  /** The token without its sign, if it has one. */
  function Magnitude(tok: string): string {
    if HasSign(tok) then tok[1..] else tok
  }

  /** The base-10 literals `int()` accepts: an optional sign, then a digit run
      with single underscores between digits and at most `MAX_STR_DIGITS`
      digits. A lone sign, a leading, trailing or doubled underscore and a
      second sign are all rejected. */
  predicate IsIntLiteral(tok: string) {
    IsDigitRun(Magnitude(tok)) && |DropUnderscores(Magnitude(tok))| <= MAX_STR_DIGITS
  }

  /** `int(tok)`: `None` where Python raises `ValueError`. `ParseIntGrammar`
      states exactly which tokens it accepts and their values, and
      `ParseIntSign` how a sign acts. */
  function ParseInt(tok: string): (r: Option<int>)
    ensures r.Some? ==> |tok| > 0
    ensures r.Some? ==> forall i :: 0 <= i < |tok| ==>
                          IsDigit(tok[i]) || tok[i] == '_' || (i == 0 && (tok[i] == '+' || tok[i] == '-'))
    ensures r.Some? && r.value < 0 ==> tok[0] == '-'
    ensures |tok| > 0 && AllDigits(tok) ==>
              r == if |tok| <= MAX_STR_DIGITS then Some(ValueOf(tok)) else None
  {
    if |tok| > 0 && (tok[0] == '+' || tok[0] == '-') then
      assert forall i :: 1 <= i < |tok| ==> tok[i] == tok[1..][i - 1];
      match ParseDigits(tok[1..])
      case None => None
      case Some(v) => Some(if tok[0] == '-' then -(v as int) else v as int)
    else
      match ParseDigits(tok)
      case None => None
      case Some(v) => Some(v)
  }

  /** `int()` accepts exactly the literals of `IsIntLiteral`, and its value is
      the digits' value, negated under a leading `-`. */
  lemma {:induction false} ParseIntGrammar(tok: string)
    ensures ParseInt(tok).Some? <==> IsIntLiteral(tok)
    ensures ParseInt(tok).Some? ==>
              && AllDigits(DropUnderscores(Magnitude(tok)))
              && ParseInt(tok).value ==
                   if tok[0] == '-' then -(ValueOf(DropUnderscores(Magnitude(tok))) as int)
                   else ValueOf(DropUnderscores(Magnitude(tok)))
  {
    if HasSign(tok) {
      assert forall i :: 1 <= i < |tok| ==> tok[i] == tok[1..][i - 1];
    }
  }

  /** An underscore `int()` does not allow: at either end, or next to another. */
  predicate MisplacedUnderscore(b: string) {
    || (|b| > 0 && (b[0] == '_' || b[|b| - 1] == '_'))
    || exists i :: 0 <= i < |b| - 1 && b[i] == '_' && b[i + 1] == '_'
  }

  /** An empty body, or one with a leading, trailing or doubled underscore, is
      rejected, signed or not; with an empty body this covers the lone signs
      `+` and `-`. */
  lemma {:induction false} ParseIntRejects(b: string)
    requires !HasSign(b)
    requires b == [] || MisplacedUnderscore(b)
    ensures ParseInt(b) == None && ParseInt("+" + b) == None && ParseInt("-" + b) == None
  {
    ParseIntGrammar(b);
    ParseIntSign(b);
  }

  /** A `+` sign and single underscores between digits are read. */
  lemma {:induction false} ParseIntAccepts()
    ensures ParseInt("1_000") == Some(1000) && ParseInt("+5") == Some(5)
  {
    var t := "1_000";
    assert IsDigitRun(t);
    assert DropUnderscores(t) == "1000" by {
      assert t[1..] == "_000" && t[1..][1..] == "000";
      assert DropUnderscores("000") == "000";
    }
    assert ValueOf("1000") == 1000 by {
      assert "1000"[..3] == "100" && "100"[..2] == "10" && "10"[..1] == "1";
    }
    assert "+5"[1..] == "5";
  }

  /** The sign law: on an unsigned body `b`, a leading `+` changes nothing and
      a leading `-` negates the value; both are rejected with `b`. */
  lemma {:induction false} ParseIntSign(b: string)
    requires !HasSign(b)
    ensures ParseInt("+" + b) == ParseInt(b)
    ensures ParseInt("-" + b) == if ParseInt(b).Some? then Some(-ParseInt(b).value) else None
  {
    assert "+" + b == ['+'] + b;
    assert "-" + b == ['-'] + b;
    SignedBody('+', b);
    SignedBody('-', b);
    if ParseDigits(b).Some? {
      assert ParseInt(b) == Some(ParseDigits(b).value as int);
    }
  }

  /** A signed token reads its digits from the body that follows the sign. */
  lemma {:induction false} SignedBody(sign: char, b: string)
    requires sign == '+' || sign == '-'
    requires !HasSign(b)
    ensures var d := ParseDigits(b);
            && ParseInt(b) == (if d.Some? then Some(d.value as int) else None)
            && ParseInt([sign] + b) ==
                 (if d.None? then None else if sign == '-' then Some(-(d.value as int)) else Some(d.value as int))
  {
    var t := [sign] + b;
    assert t[0] == sign && t[1..] == b;
  }

  function DigitChar(d: nat): (c: char)
    requires d < 10
    ensures IsDigit(c) && c as int - '0' as int == d
  {
    ('0' as int + d) as char
  }

  /** `str(n)` for a natural number. */
  function FormatNat(n: nat): (r: string)
    ensures |r| > 0 && AllDigits(r)
  {
    if n < 10 then [DigitChar(n)] else FormatNat(n / 10) + [DigitChar(n % 10)]
  }

  /** `str(n)`. */
  function FormatInt(n: int): (r: string)
    ensures |r| > 0
  {
    if n < 0 then "-" + FormatNat(-n) else FormatNat(n)
  }

  lemma {:induction false} ValueOfFormatNat(n: nat)
    ensures ValueOf(FormatNat(n)) == n
  {
    if n >= 10 {
      var f := FormatNat(n / 10);
      var s := f + [DigitChar(n % 10)];
      assert s[..|s| - 1] == f;
      ValueOfFormatNat(n / 10);
    }
  }

  /** The number of decimal digits of `n`, sign not counted. */
  function DigitCount(n: int): nat {
    |FormatNat(if n < 0 then -n else n)|
  }

  /** `int(str(n)) == n` wherever `str(n)` stays within the digit limit; past
      it, `int()` rejects the rendering (as `str(n)` itself would raise). */
  lemma {:induction false} ParseFormat(n: int)
    ensures ParseInt(FormatInt(n)) == if DigitCount(n) <= MAX_STR_DIGITS then Some(n) else None
  {
    if n < 0 {
      ParseFormatNegative(n);
    } else {
      ParseFormatNonNegative(n);
    }
  }

  /** `ParseFormat` for `n >= 0`: `str(n)` is the bare digit string. */
  lemma {:induction false} ParseFormatNonNegative(n: int)
    requires n >= 0
    ensures ParseInt(FormatInt(n)) == if DigitCount(n) <= MAX_STR_DIGITS then Some(n) else None
  {
    ValueOfFormatNat(n);
  }

  /** `ParseFormat` for `n < 0`: `str(n)` is `-` and the digits of `-n`. */
  lemma {:induction false} ParseFormatNegative(n: int)
    requires n < 0
    ensures ParseInt(FormatInt(n)) == if DigitCount(n) <= MAX_STR_DIGITS then Some(n) else None
  {
    var digits := FormatNat(-n);
    ValueOfFormatNat(-n);
    assert ParseDigits(digits) == if |digits| <= MAX_STR_DIGITS then Some(-n) else None;
    var tok := FormatInt(n);
    assert tok == "-" + digits;
    assert tok[0] == '-' && tok[1..] == digits;
  }
}

=== FILE: router.dfy ===
/** The body of `packet_loop`: per-datagram dispatch by source address, and the
    loop folded over a sequence of received datagrams. */
module Router {
  import opened Base
  import opened Tokens
  import opened Text
  import opened PyInt
  import opened Session
  import opened Control

  /** The branch of the dispatch a datagram takes. */
  datatype Route = FromRelay | FromRemotePeer | FromLoopback | FromElsewhere

  /** The `if / elif / elif` chain: relay first, then the remote peer, then
      any host starting with "127.". */
  function Classify(s: State, relay: Addr, src: Addr): (r: Route)
    ensures r == FromRelay <==> src == relay
    ensures r == FromRemotePeer <==> src != relay && s.remotePeer == Some(src)
    ensures r == FromLoopback <==> src != relay && s.remotePeer != Some(src) && IsLoopbackHost(src.host)
  {
    if src == relay then FromRelay
    else if s.remotePeer == Some(src) then FromRemotePeer
    else if IsLoopbackHost(src.host) then FromLoopback
    else FromElsewhere
  }

  /** Result of handling one datagram: the next state and the sends, or the
      `ValueError` that `int()` raises, which ends the loop. */
  datatype Outcome = Next(state: State, sends: seq<Send>) | Raised(token: string)

  /** Relay branch: a PEER line overwrites the remote peer, whatever it was;
      every other payload is ignored; nothing is ever sent. */
  function OnRelay(s: State, data: Bytes): (o: Outcome)
    ensures o.Next? ==> o.sends == [] && o.state.(remotePeer := s.remotePeer) == s
    ensures var t := Tokenize(Decode(data));
      && (IsPeerLine(t) && ParseInt(t[2]).Some? ==>
            o.Next? && o.state.remotePeer == Some(Addr(t[1], ParseInt(t[2]).value)))
      && (IsPeerLine(t) && ParseInt(t[2]).None? ==> o == Raised(t[2]))
      && (!IsPeerLine(t) ==> o == Next(s, []))
  {
    match ParseControl(data)
    case PeerAnnounce(a) => Next(s.(remotePeer := Some(a)), [])
    case BadPort(tok) => Raised(tok)
    case Other => Next(s, [])
  }

  /** Remote-peer branch: every payload but the punch marker is sent on,
      unchanged, towards `('127.0.0.1', local_peer)`; the state is untouched. */
  function OnRemotePeer(s: State, data: Bytes): (o: Outcome)
    ensures o.Next? && o.state == s
    ensures |o.sends| == 1 <==> data != PUNCH_MESSAGE
    ensures forall k :: 0 <= k < |o.sends| ==>
              o.sends[k].payload == data && o.sends[k].payload != PUNCH_MESSAGE
              && o.sends[k].dest == LoopbackPair(s.localPeer)
  {
    Next(s, if data != PUNCH_MESSAGE then [Send(data, LoopbackPair(s.localPeer))] else [])
  }

  /** Loopback branch: the source becomes the local peer and the payload,
      marker included, is sent on unchanged towards `('127.0.0.1', remote_peer)`. */
  function OnLoopback(s: State, src: Addr, data: Bytes): (o: Outcome)
    ensures o.Next? && o.state.localPeer == Some(src)
    ensures o.state.(localPeer := s.localPeer) == s
    ensures |o.sends| == 1 && o.sends[0].payload == data
    ensures o.sends[0].dest == LoopbackPair(s.remotePeer)
  {
    var s' := s.(localPeer := Some(src));
    Next(s', [Send(data, LoopbackPair(s'.remotePeer))])
  }

  /** One iteration of `packet_loop` for a datagram `data` from `src`. */
  function Step(s: State, relay: Addr, src: Addr, data: Bytes): (o: Outcome)
    // Only relay traffic can raise, and relay traffic never causes a send.
    ensures o.Raised? ==> src == relay
    ensures src == relay && o.Next? ==> o.sends == []
    // A relay address that is also the remote peer is still read as relay traffic.
    ensures src == relay && s.remotePeer == Some(src) && o.Next? ==> o.state.localPeer == s.localPeer
    // The router never writes `connected` or `direct_ok`.
    ensures o.Next? ==> o.state.connected == s.connected && o.state.directOk == s.directOk
    // Only the relay moves the remote peer; only a loopback source becomes the local peer.
    ensures o.Next? && o.state.remotePeer != s.remotePeer ==> src == relay
    ensures o.Next? && o.state.localPeer != s.localPeer ==>
              src != relay && IsLoopbackHost(src.host) && o.state.localPeer == Some(src)
    ensures o.Next? && LocalPeerIsLoopback(s) ==> LocalPeerIsLoopback(o.state)
    // At most one send: the received payload, to a `('127.0.0.1', field)` pair.
    ensures o.Next? ==> |o.sends| <= 1
    ensures o.Next? ==> forall k :: 0 <= k < |o.sends| ==>
              o.sends[k].payload == data && o.sends[k].dest.LoopbackPair?
    // The marker is forwarded only from a loopback source.
    ensures o.Next? && |o.sends| > 0 && data == PUNCH_MESSAGE ==>
              src != relay && s.remotePeer != Some(src) && IsLoopbackHost(src.host)
    // A source that matches no branch changes nothing and gets nothing.
    ensures src != relay && s.remotePeer != Some(src) && !IsLoopbackHost(src.host) ==> o == Next(s, [])
  {
    match Classify(s, relay, src)
    case FromRelay => OnRelay(s, data)
    case FromRemotePeer => OnRemotePeer(s, data)
    case FromLoopback => OnLoopback(s, src, data)
    case FromElsewhere => Next(s, [])
  }

  /** A received datagram: `(data, addr)` from `recvfrom`. */
  datatype Datagram = Datagram(src: Addr, payload: Bytes)

  /** The router after a run of datagrams: its final state, everything it
      sent, and the token `int()` rejected if the loop died on one. */
  datatype Trace = Trace(state: State, sends: seq<Send>, raised: Option<string>)

  /** `packet_loop` over the datagrams `ds`, in order; it stops at the first
      `ValueError`. */
  function Run(s: State, relay: Addr, ds: seq<Datagram>): (t: Trace)
    ensures LocalPeerIsLoopback(s) ==> LocalPeerIsLoopback(t.state)
    ensures forall k :: 0 <= k < |t.sends| ==> t.sends[k].dest.LoopbackPair?
    decreases |ds|
  {
    if ds == [] then Trace(s, [], None)
    else
      match Step(s, relay, ds[0].src, ds[0].payload)
      case Raised(tok) => Trace(s, [], Some(tok))
      case Next(s', out) =>
        var t := Run(s', relay, ds[1..]);
        Trace(t.state, out + t.sends, t.raised)
  }

  /** Over any run, `connected` and `direct_ok` keep their values. */
  lemma {:induction false} RunKeepsFlags(s: State, relay: Addr, ds: seq<Datagram>)
    ensures Run(s, relay, ds).state.connected == s.connected
    ensures Run(s, relay, ds).state.directOk == s.directOk
    decreases |ds|
  {
    if ds != [] {
      var o := Step(s, relay, ds[0].src, ds[0].payload);
      if o.Next? {
        RunKeepsFlags(o.state, relay, ds[1..]);
      }
    }
  }

  /** A datagram from the relay whose PEER line has a port `int()` rejects. */
  predicate Poisoned(relay: Addr, d: Datagram) {
    d.src == relay && ParseControl(d.payload).BadPort?
  }

  /** The loop dies exactly when some relay datagram carries a PEER line with
      a non-integer port, whatever the state it starts from. */
  lemma {:induction false} RunRaisesIff(s: State, relay: Addr, ds: seq<Datagram>)
    ensures Run(s, relay, ds).raised.Some? <==>
            exists i :: 0 <= i < |ds| && Poisoned(relay, ds[i])
    decreases |ds|
  {
    if ds != [] {
      var o := Step(s, relay, ds[0].src, ds[0].payload);
      if o.Raised? {
        assert Poisoned(relay, ds[0]);
      } else {
        assert !Poisoned(relay, ds[0]);
        RunRaisesIff(o.state, relay, ds[1..]);
        if exists i :: 0 <= i < |ds| && Poisoned(relay, ds[i]) {
          var i :| 0 <= i < |ds| && Poisoned(relay, ds[i]);
          assert ds[1..][i - 1] == ds[i];
        }
        if exists j :: 0 <= j < |ds[1..]| && Poisoned(relay, ds[1..][j]) {
          var j :| 0 <= j < |ds[1..]| && Poisoned(relay, ds[1..][j]);
          assert ds[j + 1] == ds[1..][j];
        }
      }
    }
  }

  /** The address of the last PEER announcement from the relay in `ds`. */
  function LastAnnounced(relay: Addr, ds: seq<Datagram>): Option<Addr>
    decreases |ds|
  {
    if ds == [] then None
    else
      var d := ds[|ds| - 1];
      var c := ParseControl(d.payload);
      if d.src == relay && c.PeerAnnounce? then Some(c.addr)
      else LastAnnounced(relay, ds[..|ds| - 1])
  }

  lemma {:induction false} LastAnnouncedCons(relay: Addr, d: Datagram, rest: seq<Datagram>)
    ensures LastAnnounced(relay, [d] + rest) ==
            if LastAnnounced(relay, rest).Some? then LastAnnounced(relay, rest)
            else LastAnnounced(relay, [d])
    decreases |rest|
  {
    if rest == [] {
      assert [d] + rest == [d];
    } else {
      var ds := [d] + rest;
      assert ds[|ds| - 1] == rest[|rest| - 1];
      assert ds[..|ds| - 1] == [d] + rest[..|rest| - 1];
      LastAnnouncedCons(relay, d, rest[..|rest| - 1]);
    }
  }

  /** As written, the last announcement wins: after a run that did not die,
      the remote peer is the address of the relay's last PEER line, or the
      starting value when there was none. */
  lemma {:induction false} RunRemotePeerIsLastAnnounced(s: State, relay: Addr, ds: seq<Datagram>)
    requires Run(s, relay, ds).raised.None?
    ensures Run(s, relay, ds).state.remotePeer ==
            if LastAnnounced(relay, ds).Some? then LastAnnounced(relay, ds) else s.remotePeer
    decreases |ds|
  {
    if ds != [] {
      var d := ds[0];
      var o := Step(s, relay, d.src, d.payload);
      assert ds == [d] + ds[1..];
      LastAnnouncedCons(relay, d, ds[1..]);
      assert [d][..0] == [];
      RunRemotePeerIsLastAnnounced(o.state, relay, ds[1..]);
    }
  }

  /** Without relay traffic the remote peer never changes and the loop never dies. */
  lemma {:induction false} RemotePeerNeedsRelay(s: State, relay: Addr, ds: seq<Datagram>)
    requires forall i :: 0 <= i < |ds| ==> ds[i].src != relay
    ensures Run(s, relay, ds).raised.None?
    ensures Run(s, relay, ds).state.remotePeer == s.remotePeer
    decreases |ds|
  {
    if ds != [] {
      RemotePeerNeedsRelay(Step(s, relay, ds[0].src, ds[0].payload).state, relay, ds[1..]);
    }
  }

  /** A run of relay datagrams sends nothing and leaves the local peer alone. */
  lemma {:induction false} RelayTrafficIsSilent(s: State, relay: Addr, ds: seq<Datagram>)
    requires forall i :: 0 <= i < |ds| ==> ds[i].src == relay
    ensures Run(s, relay, ds).sends == []
    ensures Run(s, relay, ds).state.localPeer == s.localPeer
    decreases |ds|
  {
    if ds != [] {
      var o := Step(s, relay, ds[0].src, ds[0].payload);
      if o.Next? {
        RelayTrafficIsSilent(o.state, relay, ds[1..]);
      }
    }
  }

  /** `d` could have produced a send of `payload`: it came from somewhere other
      than the relay, carried `payload`, and, if that is the marker, came from
      a loopback host. */
  predicate Carries(relay: Addr, d: Datagram, payload: Bytes) {
    && d.src != relay
    && d.payload == payload
    && (payload == PUNCH_MESSAGE ==> IsLoopbackHost(d.src.host))
  }

  /** Some datagram of `ds` could have produced a send of `payload`. */
  predicate Explained(relay: Addr, ds: seq<Datagram>, payload: Bytes) {
    exists i :: 0 <= i < |ds| && Carries(relay, ds[i], payload)
  }

  lemma {:induction false} ExplainedByLater(relay: Addr, ds: seq<Datagram>, payload: Bytes)
    requires ds != [] && Explained(relay, ds[1..], payload)
    ensures Explained(relay, ds, payload)
  {
    var j :| 0 <= j < |ds[1..]| && Carries(relay, ds[1..][j], payload);
    assert ds[j + 1] == ds[1..][j];
  }

  /** Every send of a run forwards, byte for byte, a payload that some
      non-relay datagram of the run carried. */
  lemma {:induction false} RunForwardsReceivedPayloads(s: State, relay: Addr, ds: seq<Datagram>)
    ensures forall k :: 0 <= k < |Run(s, relay, ds).sends| ==>
              Explained(relay, ds, Run(s, relay, ds).sends[k].payload)
    decreases |ds|
  {
    if ds != [] {
      var o := Step(s, relay, ds[0].src, ds[0].payload);
      if o.Next? {
        RunForwardsReceivedPayloads(o.state, relay, ds[1..]);
        var rest := Run(o.state, relay, ds[1..]).sends;
        var all := Run(s, relay, ds).sends;
        assert all == o.sends + rest;
        forall k | 0 <= k < |all|
          ensures Explained(relay, ds, all[k].payload)
        {
          if k < |o.sends| {
            assert Carries(relay, ds[0], all[k].payload);
          } else {
            assert all[k] == rest[k - |o.sends|];
            ExplainedByLater(relay, ds, all[k].payload);
          }
        }
      }
    }
  }

  /** A relay PEER line that parses sets the remote peer and nothing else. */
  lemma {:induction false} AnnouncementStep(s: State, relay: Addr, data: Bytes, a: Addr)
    requires ParseControl(data) == PeerAnnounce(a)
    ensures Step(s, relay, relay, data) == Next(s.(remotePeer := Some(a)), [])
  {
  }

  /** Two announcements in a row: the second overwrites the first. The ports
      are ones the relay's `str()` can render. */
  lemma {:induction false} SecondAnnouncementWins(s: State, relay: Addr, ip1: string, p1: int, ip2: string, p2: int)
    requires IsWord(ip1) && IsAscii(ip1) && IsWord(ip2) && IsAscii(ip2)
    requires DigitCount(p1) <= MAX_STR_DIGITS && DigitCount(p2) <= MAX_STR_DIGITS
    ensures var ds := [Datagram(relay, PeerLine(ip1, FormatInt(p1), [])),
                       Datagram(relay, PeerLine(ip2, FormatInt(p2), []))];
            Run(s, relay, ds) == Trace(s.(remotePeer := Some(Addr(ip2, p2))), [], None)
  {
    var d1 := Datagram(relay, PeerLine(ip1, FormatInt(p1), []));
    var d2 := Datagram(relay, PeerLine(ip2, FormatInt(p2), []));
    AnnounceRoundTrip(ip1, p1, []);
    AnnounceRoundTrip(ip2, p2, []);
    TwoAnnouncements(s, relay, d1, d2, Addr(ip1, p1), Addr(ip2, p2));
  }

  lemma {:induction false} TwoAnnouncements(s: State, relay: Addr, d1: Datagram, d2: Datagram, a1: Addr, a2: Addr)
    requires d1.src == relay && ParseControl(d1.payload) == PeerAnnounce(a1)
    requires d2.src == relay && ParseControl(d2.payload) == PeerAnnounce(a2)
    ensures Run(s, relay, [d1, d2]) == Trace(s.(remotePeer := Some(a2)), [], None)
  {
    var s1 := s.(remotePeer := Some(a1));
    var s2 := s.(remotePeer := Some(a2));
    AnnouncementStep(s1, relay, d2.payload, a2);
    RunQuietStep(s1, s2, relay, d2, []);
    AnnouncementStep(s, relay, d1.payload, a1);
    RunQuietStep(s, s1, relay, d1, [d2]);
  }

  /** Unfolding `Run` once over a datagram that sends nothing. */
  lemma {:induction false} RunQuietStep(s: State, s': State, relay: Addr, d: Datagram, rest: seq<Datagram>)
    requires Step(s, relay, d.src, d.payload) == Next(s', [])
    ensures Run(s, relay, [d] + rest) == Run(s', relay, rest)
  {
    var ds := [d] + rest;
    assert ds[0] == d && ds[1..] == rest;
    assert Run(s, relay, ds) == Trace(Run(s', relay, rest).state, [] + Run(s', relay, rest).sends, Run(s', relay, rest).raised);
  }
}

=== FILE: session.dfy ===
/** The client's session record, its send actions and its fixed wire texts:
    the `state` dictionary, `PUNCH_MESSAGE` and the REGISTER line. */
module Session {
  import opened Base
  import opened Text
  import opened Tokens

  /** A Python socket address `(host, port)`. */
  datatype Addr = Addr(host: string, port: int)

  /** The shared `state` dictionary. `directOk` stands for a truthy value under
      the key `'direct_ok'`, which the client reads but never stores. */
  datatype State = State(localPeer: Option<Addr>, remotePeer: Option<Addr>, connected: bool, directOk: bool)

  /** The destination handed to `sendto`. `To(a)` is the address `a` itself;
      `LoopbackPair(v)` is the tuple `('127.0.0.1', v)` whose second component
      is a whole `state` field value (an address or `None`), not a port. */
  datatype Dest = To(addr: Addr) | LoopbackPair(second: Option<Addr>)

  /** One `sendto(payload, dest)` on the external socket. */
  datatype Send = Send(payload: Bytes, dest: Dest)

  const LOOPBACK_HOST: string := "127.0.0.1"

  /** The punch marker, `b"THIS_IS_A_UNIQUE_MESSAGE_5348y2dhjkg"`, byte by byte. */
  const PUNCH_MESSAGE: Bytes :=
    [84, 72, 73, 83, 95, 73, 83, 95, 65, 95, 85, 78, 73, 81, 85, 69, 95, 77,
     69, 83, 83, 65, 71, 69, 95, 53, 51, 52, 56, 121, 50, 100, 104, 106, 107, 103]

  /** `host.startswith("127.")`. */
  predicate IsLoopbackHost(host: string) {
    "127." <= host
  }

  /** The local peer, once known, is an address in the 127.x.x.x range. */
  predicate LocalPeerIsLoopback(s: State) {
    s.localPeer.Some? ==> IsLoopbackHost(s.localPeer.value.host)
  }

  /** The `state` dictionary as `main` builds it from `--local-default`; a
      missing or zero option (both falsy in Python) leaves the local peer unset. */
  function InitialState(localDefault: Option<int>): (s: State)
    ensures s.remotePeer == None && !s.connected && !s.directOk
    ensures LocalPeerIsLoopback(s)
    ensures s.localPeer.Some? <==> localDefault.Some? && localDefault.value != 0
    ensures s.localPeer.Some? ==> s.localPeer.value == Addr(LOOPBACK_HOST, localDefault.value)
  {
    var local := if localDefault.None? || localDefault.value == 0 then None
                 else Some(Addr(LOOPBACK_HOST, localDefault.value));
    State(local, None, false, false)
  }

  /** `f"REGISTER {session}\n".encode()`. */
  function RegisterMessage(session: string): (r: Bytes)
    ensures r == REGISTER_PREFIX + Encode(session) + [10]
  {
    RegisterEncoding(session);
    Encode("REGISTER " + session + "\n")
  }

  /** The bytes of `"REGISTER "`. */
  const REGISTER_PREFIX: Bytes := [82, 69, 71, 73, 83, 84, 69, 82, 32]

  lemma {:induction false} RegisterEncoding(session: string)
    ensures Encode("REGISTER " + session + "\n") == REGISTER_PREFIX + Encode(session) + [10]
  {
    EncodeAppend("REGISTER " + session, "\n");
    EncodeAppend("REGISTER ", session);
    NewlineBytes();
    PrefixBytes();
  }

  lemma {:induction false} NewlineBytes()
    ensures Encode("\n") == [10]
  {
    EncodeAscii("\n");
  }

  lemma {:induction false} PrefixBytes()
    ensures Encode("REGISTER ") == REGISTER_PREFIX
  {
    EncodeAscii("REGISTER ");
  }

  lemma {:induction false} JoinedIsAscii(ws: seq<string>)
    requires forall k :: 0 <= k < |ws| ==> IsAscii(ws[k])
    ensures IsAscii(JoinSpaced(ws))
    decreases |ws|
  {
    if |ws| > 1 {
      JoinedIsAscii(ws[1..]);
      var j := JoinSpaced(ws[1..]);
      assert JoinSpaced(ws) == ws[0] + " " + j;
      assert forall i :: 0 <= i < |ws[0]| ==> JoinSpaced(ws)[i] == ws[0][i];
      assert forall i :: |ws[0]| < i < |JoinSpaced(ws)| ==> JoinSpaced(ws)[i] == j[i - |ws[0]| - 1];
    }
  }

  /** A newline-terminated line of ASCII words, sent as bytes, reads back as
      the same words under `data.decode(errors="ignore").strip().split()`. */
  lemma {:induction false} ReadBackLine(ws: seq<string>)
    requires forall k :: 0 <= k < |ws| ==> IsWord(ws[k]) && IsAscii(ws[k])
    ensures Tokenize(Decode(Encode(JoinSpaced(ws) + "\n"))) == ws
  {
    var line := JoinSpaced(ws) + "\n";
    JoinedIsAscii(ws);
    LineIsAscii(JoinSpaced(ws));
    DecodeEncode(line);
    SplitLine(ws);
  }

  lemma {:induction false} SplitLine(ws: seq<string>)
    requires forall k :: 0 <= k < |ws| ==> IsWord(ws[k])
    ensures Split(JoinSpaced(ws) + "\n") == ws
  {
    assert AllSpace("\n") by {
      assert IsSpace('\n');
    }
    SplitJoin(ws, "\n");
  }

  lemma {:induction false} LineIsAscii(s: string)
    requires IsAscii(s)
    ensures IsAscii(s + "\n")
  {
  }

  /** The relay, splitting a REGISTER line the way the client splits relay
      messages, recovers exactly the session identifier. */
  lemma {:induction false} RegisterReadsBack(session: string)
    requires IsWord(session) && IsAscii(session)
    ensures Tokenize(Decode(RegisterMessage(session))) == ["REGISTER", session]
  {
    var ws := ["REGISTER", session];
    assert IsWord("REGISTER") && IsAscii("REGISTER");
    assert JoinSpaced(ws) + "\n" == "REGISTER " + session + "\n";
    ReadBackLine(ws);
  }
}

=== FILE: text.dfy ===
/** Conversions between Python `str` and `bytes`: `str.encode()` (UTF-8) and
    `bytes.decode(errors="ignore")`, the latter restricted to its ASCII part. */
module Text {
  import opened Base

  predicate IsAscii(s: string) {
    forall i :: 0 <= i < |s| ==> s[i] as int < 0x80
  }

  /** The UTF-8 encoding of one Unicode scalar value. */
  function EncodeChar(c: char): (r: Bytes)
    ensures 1 <= |r| <= 4
    ensures |r| == 1 <==> c as int < 0x80
    ensures |r| == 1 ==> r[0] as int == c as int
    ensures |r| > 1 ==> forall i :: 0 <= i < |r| ==> r[i] >= 0x80
  {
    var n := c as int;
    if n < 0x80 then
      [n as byte]
    else if n < 0x800 then
      [(0xC0 + n / 0x40) as byte, (0x80 + n % 0x40) as byte]
    else if n < 0x1_0000 then
      [(0xE0 + n / 0x1000) as byte, (0x80 + n / 0x40 % 0x40) as byte, (0x80 + n % 0x40) as byte]
    else
      [(0xF0 + n / 0x4_0000) as byte, (0x80 + n / 0x1000 % 0x40) as byte,
       (0x80 + n / 0x40 % 0x40) as byte, (0x80 + n % 0x40) as byte]
  }

  /** `s.encode()`: UTF-8, character by character. */
  function Encode(s: string): (r: Bytes)
    ensures |s| <= |r| <= 4 * |s|
    ensures IsAscii(s) ==> |r| == |s|
  {
    if s == [] then [] else EncodeChar(s[0]) + Encode(s[1..])
  }

  /** Encoding is a homomorphism from string concatenation to byte concatenation. */
  lemma {:induction false} EncodeAppend(a: string, b: string)
    ensures Encode(a + b) == Encode(a) + Encode(b)
    decreases |a|
  {
    if a == [] {
      assert a + b == b;
    } else {
      assert (a + b)[0] == a[0];
      assert (a + b)[1..] == a[1..] + b;
      EncodeAppend(a[1..], b);
    }
  }

  /** On ASCII text, encoding maps each character to the byte of the same value. */
  lemma {:induction false} EncodeAscii(s: string)
    requires IsAscii(s)
    ensures |Encode(s)| == |s|
    ensures forall i :: 0 <= i < |s| ==> Encode(s)[i] as int == s[i] as int
    decreases |s|
  {
    if s != [] {
      EncodeAscii(s[1..]);
      assert Encode(s) == EncodeChar(s[0]) + Encode(s[1..]);
    }
  }

  /** `data.decode(errors="ignore")` on the ASCII range: every byte below 0x80
      is its own character; every other byte is dropped. */
  function Decode(bs: Bytes): (r: string)
    ensures IsAscii(r)
    ensures |r| <= |bs|
  {
    if bs == [] then []
    else (if bs[0] < 0x80 then [(bs[0] as int) as char] else []) + Decode(bs[1..])
  }

  /** Decoding undoes encoding on ASCII text. */
  lemma {:induction false} DecodeEncode(s: string)
    requires IsAscii(s)
    ensures Decode(Encode(s)) == s
    decreases |s|
  {
    if s != [] {
      var e := Encode(s);
      assert e == EncodeChar(s[0]) + Encode(s[1..]);
      assert e[0] as int == s[0] as int;
      assert e[1..] == Encode(s[1..]);
      DecodeEncode(s[1..]);
      assert Decode(e) == [s[0]] + s[1..];
    }
  }
}

=== FILE: tokens.dfy ===
/** Python's `str.strip()` and `str.split()` with no arguments: whitespace is
    every character for which `str.isspace()` holds, and a token is a maximal
    run of other characters. */
module Tokens {

  /** `c.isspace()` in Python 3. */
  predicate IsSpace(c: char) {
    var n := c as int;
    || 0x09 <= n <= 0x0D || 0x1C <= n <= 0x20
    || n == 0x85 || n == 0xA0 || n == 0x1680 || 0x2000 <= n <= 0x200A
    || n == 0x2028 || n == 0x2029 || n == 0x202F || n == 0x205F || n == 0x3000
  }

  predicate AllSpace(s: string) {
    forall i :: 0 <= i < |s| ==> IsSpace(s[i])
  }

  /** A token as `split()` yields it: non-empty and free of whitespace. */
  predicate IsWord(w: string) {
    |w| > 0 && forall i :: 0 <= i < |w| ==> !IsSpace(w[i])
  }

  /** Length of the leading run of non-whitespace characters. */
  function WordLength(s: string): (n: nat)
    ensures n <= |s|
    ensures forall i :: 0 <= i < n ==> !IsSpace(s[i])
    ensures n < |s| ==> IsSpace(s[n])
  {
    if s == [] || IsSpace(s[0]) then 0 else 1 + WordLength(s[1..])
  }

  /** `s.split()`. */
  function Split(s: string): (r: seq<string>)
    ensures forall k :: 0 <= k < |r| ==> IsWord(r[k])
    decreases |s|
  {
    if s == [] then []
    else if IsSpace(s[0]) then Split(s[1..])
    else
      var n := WordLength(s);
      [s[..n]] + Split(s[n..])
  }

  /** Number of leading whitespace characters. */
  function LeadingSpace(s: string): (n: nat)
    ensures n <= |s|
    ensures forall i :: 0 <= i < n ==> IsSpace(s[i])
    ensures n < |s| ==> !IsSpace(s[n])
  {
    if s != [] && IsSpace(s[0]) then 1 + LeadingSpace(s[1..]) else 0
  }

  /** Number of trailing whitespace characters. */
  function TrailingSpace(s: string): (n: nat)
    ensures n <= |s|
    ensures forall i :: |s| - n <= i < |s| ==> IsSpace(s[i])
    ensures n < |s| ==> !IsSpace(s[|s| - n - 1])
  {
    if s != [] && IsSpace(s[|s| - 1]) then 1 + TrailingSpace(s[..|s| - 1]) else 0
  }

  /** `s.lstrip()`. */
  function LStrip(s: string): string {
    s[LeadingSpace(s)..]
  }

  /** `s.rstrip()`. */
  function RStrip(s: string): string {
    s[..|s| - TrailingSpace(s)]
  }

  /** `s.strip()`. */
  function Strip(s: string): string {
    RStrip(LStrip(s))
  }

  /** The tokens of `s.strip().split()`, the call the client makes on relay
      payloads. `split()` already discards whitespace at both ends, so the
      `strip()` adds nothing (`StripIsRedundant`) and the tokens are `Split(s)`. */
  function Tokenize(s: string): seq<string> {
    Split(s)
  }

  /** Tokens joined by single spaces, the inverse direction of `Split`. */
  function JoinSpaced(ws: seq<string>): string {
    if |ws| == 0 then ""
    else if |ws| == 1 then ws[0]
    else ws[0] + " " + JoinSpaced(ws[1..])
  }

  /** `s` with every whitespace character removed. */
  function NonSpace(s: string): (r: string)
    ensures |r| <= |s|
  {
    if s == [] then [] else (if IsSpace(s[0]) then [] else [s[0]]) + NonSpace(s[1..])
  }

  /** Concatenation of a sequence of strings. */
  function Concat(ws: seq<string>): string {
    if ws == [] then [] else ws[0] + Concat(ws[1..])
  }

  lemma {:induction false} NonSpaceAppend(a: string, b: string)
    ensures NonSpace(a + b) == NonSpace(a) + NonSpace(b)
    decreases |a|
  {
    if a == [] {
      assert a + b == b;
    } else {
      var ab := a + b;
      var h := if IsSpace(a[0]) then [] else [a[0]];
      assert ab[0] == a[0];
      assert ab[1..] == a[1..] + b;
      assert NonSpace(ab) == h + NonSpace(a[1..] + b);
      NonSpaceAppend(a[1..], b);
      assert NonSpace(a) == h + NonSpace(a[1..]);
    }
  }

  lemma {:induction false} NonSpaceOfWord(w: string)
    requires forall i :: 0 <= i < |w| ==> !IsSpace(w[i])
    ensures NonSpace(w) == w
    decreases |w|
  {
    if w != [] {
      NonSpaceOfWord(w[1..]);
      assert w == [w[0]] + w[1..];
    }
  }

  /** `split()` loses exactly the whitespace: its tokens, glued back together,
      are the input's non-whitespace characters in order. */
  lemma {:induction false} SplitKeepsContent(s: string)
    ensures Concat(Split(s)) == NonSpace(s)
    decreases |s|
  {
    if s == [] {
    } else if IsSpace(s[0]) {
      SplitKeepsContent(s[1..]);
    } else {
      var n := WordLength(s);
      SplitKeepsContent(s[n..]);
      assert s == s[..n] + s[n..];
      NonSpaceAppend(s[..n], s[n..]);
      NonSpaceOfWord(s[..n]);
      var r := [s[..n]] + Split(s[n..]);
      assert r[0] == s[..n] && r[1..] == Split(s[n..]);
    }
  }

  lemma {:induction false} SplitAllSpace(s: string)
    requires AllSpace(s)
    ensures Split(s) == []
    decreases |s|
  {
    if s != [] {
      SplitAllSpace(s[1..]);
    }
  }

  /** Leading whitespace does not change the tokens. */
  lemma {:induction false} SplitSkipsLeadingSpace(pre: string, s: string)
    requires AllSpace(pre)
    ensures Split(pre + s) == Split(s)
    decreases |pre|
  {
    if pre != [] {
      assert (pre + s)[1..] == pre[1..] + s;
      SplitSkipsLeadingSpace(pre[1..], s);
    } else {
      assert pre + s == s;
    }
  }

  /** Appending text that starts with whitespace leaves a word's end where it was. */
  lemma {:induction false} WordLengthExtend(x: string, y: string)
    requires WordLength(x) < |x| || y == [] || IsSpace(y[0])
    ensures WordLength(x + y) == WordLength(x)
    decreases |x|
  {
    if x == [] {
      assert x + y == y;
    } else if !IsSpace(x[0]) {
      assert (x + y)[1..] == x[1..] + y;
      WordLengthExtend(x[1..], y);
    }
  }

  /** Trailing whitespace does not change the tokens. */
  lemma {:induction false} SplitIgnoresTrailingSpace(x: string, tail: string)
    requires AllSpace(tail)
    ensures Split(x + tail) == Split(x)
    decreases |x|
  {
    if x == [] {
      assert x + tail == tail;
      SplitAllSpace(tail);
    } else if IsSpace(x[0]) {
      assert (x + tail)[1..] == x[1..] + tail;
      SplitIgnoresTrailingSpace(x[1..], tail);
    } else {
      var n := WordLength(x);
      WordLengthExtend(x, tail);
      assert (x + tail)[..n] == x[..n];
      assert (x + tail)[n..] == x[n..] + tail;
      SplitIgnoresTrailingSpace(x[n..], tail);
    }
  }

  /** The `strip()` before `split()` has no effect on the tokens. */
  lemma {:induction false} StripIsRedundant(s: string)
    ensures Split(Strip(s)) == Tokenize(s)
  {
    SplitOfLStrip(s);
    SplitOfRStrip(LStrip(s));
  }

  lemma {:induction false} SplitOfLStrip(s: string)
    ensures Split(LStrip(s)) == Split(s)
  {
    var n := LeadingSpace(s);
    assert s == s[..n] + s[n..];
    SplitSkipsLeadingSpace(s[..n], s[n..]);
  }

  lemma {:induction false} SplitOfRStrip(s: string)
    ensures Split(RStrip(s)) == Split(s)
  {
    var m := |s| - TrailingSpace(s);
    assert s == s[..m] + s[m..];
    SplitIgnoresTrailingSpace(s[..m], s[m..]);
  }

  /** `split()` recovers words joined by single spaces, whatever whitespace follows. */
  lemma {:induction false} SplitJoin(ws: seq<string>, tail: string)
    requires forall k :: 0 <= k < |ws| ==> IsWord(ws[k])
    requires AllSpace(tail)
    ensures Split(JoinSpaced(ws) + tail) == ws
    decreases |ws|
  {
    if |ws| == 0 {
      assert JoinSpaced(ws) + tail == tail;
      SplitAllSpace(tail);
    } else if |ws| == 1 {
      SplitWordThen(ws[0], tail);
      SplitAllSpace(tail);
    } else {
      var more := JoinSpaced(ws[1..]) + tail;
      SplitJoin(ws[1..], tail);
      SplitJoinStep(ws[0], JoinSpaced(ws[1..]), tail);
      assert JoinSpaced(ws) == ws[0] + " " + JoinSpaced(ws[1..]);
      assert ws == [ws[0]] + ws[1..];
    }
  }

  /** One word, a space, then the rest: the word is the first token. */
  lemma {:induction false} SplitJoinStep(w: string, rest: string, tail: string)
    requires IsWord(w)
    ensures Split(w + " " + rest + tail) == [w] + Split(rest + tail)
  {
    var more := rest + tail;
    assert w + " " + rest + tail == w + ([' '] + more);
    SplitWordThen(w, [' '] + more);
    assert ([' '] + more)[1..] == more;
  }

  /** A word followed by whitespace (or nothing) is split off as the first token. */
  lemma {:induction false} SplitWordThen(w: string, rest: string)
    requires IsWord(w)
    requires rest == [] || IsSpace(rest[0])
    ensures Split(w + rest) == [w] + Split(rest)
  {
    var s := w + rest;
    assert WordLength(w) == |w|;
    WordLengthExtend(w, rest);
    assert s[..|w|] == w;
    assert s[|w|..] == rest;
  }
}
